=== FILE: README.md ===
# TransIP provider naming core

A Dafny model of how the Pulumi TransIP provider names its resources and data
sources. The provider bridges a Terraform provider. It gives every Terraform
identifier a Pulumi token, and it builds those tokens while it builds its
provider descriptor.

- `convertName` takes a Terraform identifier such as
  `transip_private_network_attachment`. It drops everything up to and
  including the first underscore. It converts the rest to PascalCase:
  `PrivateNetworkAttachment`. Two assertions guard the conversion. A
  failed assertion panics and aborts the whole build.
- `makeResource` makes a resource token `(transip, mod, Name)`.
  `makeDataSource` makes a data-source token `(transip, mod, getName)`.
- `Provider()` declares two static maps. `Resources` has 11 entries and
  `DataSources` has 7. Each entry maps an identifier to the token built from
  that same identifier in the main module `index`.

Modules:

- `Faults` turns the panic of `contract.Assertf` into a `Failure` value. It
  records which assertion fired and the string its message was formatted
  with.
- `Strcase` models `strcase.ToPascal` on lower-case snake_case. It pairs the
  conversion with an inverse (`ToSnake`) and with a word-level reference
  definition: the words, each capitalised, concatenated.
- `Naming` models `convertName`. It also states, without `strings.Index`,
  which names `convertName` accepts.
- `Tokens` models `makeResource` and `makeDataSource`.
- `Catalog` models the main module constant and the two map literals. Each
  literal is transcribed entry by entry in source order, as key, module and
  builder argument. `Provider()` is reduced to those two maps.

A converted name is not always non-empty or upper-case first. The first
assertion only places the first underscore strictly inside the name, so `x__`
or `x_1a` get through, and the name is whatever `strcase.ToPascal` makes of
the rest. The model proves the non-empty, upper-case-first and underscore-free shape
for snake_case suffixes, which is the case for every catalog key
(`Naming.ConvertNameOfSnake`, `Catalog.ResourceKeysArePrefixed`,
`Catalog.DataSourceKeysArePrefixed`). The second assertion (provider/resources.go:44) re-checks
what the first already guarantees, so it never fires.
`Naming.ConvertName` states this: every failure comes from the first assertion.

## Model

| member | source | states |
|---|---|---|
| Naming.IndexOf | provider/resources.go:41 | The result is -1 exactly when there is no underscore. Otherwise it is the position of the first underscore, with none before it. |
| Naming.IndexOfFirst | provider/resources.go:41 | A position that holds the first underscore is the index `strings.Index` returns. |
| Naming.ConvertName | provider/resources.go:40-46 | Every failure is the first assertion's, formatted with the whole name, so the second assertion never fires. A converted name has no underscore and is shorter than the input. |
| Naming.ConvertNameAccepts | provider/resources.go:41-42 | The conversion succeeds if and only if the first underscore is neither the first nor the last character. |
| Naming.ConvertNameRejects | provider/resources.go:41-42 | A name with no underscore, with a leading underscore, or whose only underscore is last is rejected. |
| Naming.ConvertNameOfSplit | provider/resources.go:41-45 | For a name `prefix_suffix` split at its first underscore, the result is `ToPascal(suffix)` when both parts are non-empty. Otherwise it is the first assertion's fault. |
| Naming.ConvertNamePrefixIndependent | provider/resources.go:43-45 | Two names with non-empty, underscore-free prefixes and the same suffix are accepted exactly when the suffix is non-empty, and then convert to the same name. |
| Naming.ConvertNameOfSnake | provider/resources.go:43-45 | On a snake_case suffix the result is the words capitalised and concatenated. It has no underscore and starts upper-case. Its length is the suffix length minus the number of underscores. `ToSnake` gives the suffix back. |
| Naming.ConvertNameInjective | provider/resources.go:43-45 | Under one prefix, two snake_case suffixes convert to the same name if and only if they are equal. |
| Strcase.PascalFrom | provider/resources.go:45 | The walk removes every separator, and the result is one character shorter per separator. |
| Strcase.ToPascal | provider/resources.go:45 | The result has no separator. On snake_case input it starts with the upper-case form of the first letter. |
| Strcase.PascalOfWords | provider/resources.go:45 | Converting words joined by underscores gives the words capitalised and concatenated. |
| Strcase.JoinIsSnake | provider/resources.go:45 | Non-empty lower-case words joined by single underscores form a snake_case string. |
| Strcase.TailRoundTrip | provider/resources.go:45 | After a word start, the inverse walk undoes the conversion walk on a snake_case tail. |
| Strcase.SnakeOfPascal | provider/resources.go:45 | `ToSnake` undoes the conversion on snake_case input. |
| Strcase.PascalInjective | provider/resources.go:45 | Two snake_case strings convert to the same name if and only if they are equal. |
| Tokens.MakeResource | provider/resources.go:53-55 | The token is built exactly when `convertName` accepts the identifier, and a failure is the first assertion's. The token has provider `transip`, the given module, and the name `convertName` returns, which has no underscore. |
| Tokens.MakeDataSource | provider/resources.go:48-51 | The token is built exactly when `convertName` accepts the identifier, and a failure is the first assertion's. The token has provider `transip`, the given module, and the name `get` followed by what `convertName` returns; the name has no underscore. |
| Tokens.MakeResourceOfSplit | provider/resources.go:53-55 | For any name split at its first underscore, the resource token is named `ToPascal(suffix)` when prefix and suffix are non-empty. Otherwise building it fails with the first assertion's fault on the whole name. |
| Tokens.MakeDataSourceOfSplit | provider/resources.go:48-51 | For any name split at its first underscore, the data-source token is named `get` followed by `ToPascal(suffix)` when prefix and suffix are non-empty. Otherwise building it fails with the first assertion's fault on the whole name. |
| Tokens.ResourceAndDataSourceTokens | provider/resources.go:48-55 | For one identifier the two tokens are built or rejected together, with the same fault. They share provider and module. The data source's name is `get` followed by the resource's name, so the tokens differ. |
| Tokens.ResourceTokenOfWords | provider/resources.go:48-55 | For a prefixed snake_case identifier, the resource name is the words capitalised and concatenated, and the data-source name puts `get` in front of it. |
| Catalog.BuildLiteral | provider/resources.go:109-130 | A map literal, evaluated entry by entry, builds if and only if every entry's token builds from that entry's own module and argument. On success its keys are exactly the entries' keys. |
| Catalog.BuildEntries | provider/resources.go:109-130 | A literal whose entries are built from their own keys builds if and only if every key's token builds. Its keys are the literal's keys, and each maps to the token built from itself. On failure the fault is the one from the first failing key, and every key before it built. |
| Catalog.BuildLiteralSelfNamed | provider/resources.go:109-130 | When every entry's argument is its key and its module is the same `mod`, evaluating the literal gives exactly the key-only fold over its keys. |
| Catalog.ResourceEntriesSelfNamed | provider/resources.go:110-120 | In every entry of the `Resources` literal, the argument passed to `makeResource` is the entry's own key, and the module is `mainMod`. |
| Catalog.DataSourceEntriesSelfNamed | provider/resources.go:123-129 | In every entry of the `DataSources` literal, the argument passed to `makeDataSource` is the entry's own key, and the module is `mainMod`. |
| Catalog.KeyColumns | provider/resources.go:110-129 | The key columns used by the key lemmas are exactly the keys of the two literals, in source order. |
| Catalog.CatalogSelfNamed | provider/resources.go:109-130 | Each of the two literals evaluates to the key-only fold over its key column in module `index`. |
| Catalog.Provider | provider/resources.go:109-130 | The descriptor builds exactly when both literals build. `Resources` is evaluated first: its fault, if any, is the result, and only then can a `DataSources` fault be. On success the two maps are the two built literals. |
| Catalog.PrefixedSnakeSplit | provider/resources.go:110-129 | The position-wise key format holds exactly when the key is the prefix followed by a snake_case suffix. |
| Catalog.ResourceKeysArePrefixed | provider/resources.go:110-120 | Every key of the `Resources` literal is `transip_` followed by a snake_case suffix. |
| Catalog.DataSourceKeysArePrefixed | provider/resources.go:123-129 | Every key of the `DataSources` literal is `transip_` followed by a snake_case suffix. |
| Catalog.PrefixedTokens | provider/resources.go:48-55 | For a provider identifier, the resource token names the PascalCase form of its suffix, and the data-source token puts `get` in front of that name. |
| Catalog.SuffixNamesDistinct | provider/resources.go:43-45 | Two provider identifiers have the same PascalCase suffix if and only if they are equal. |
| Catalog.PrefixedNamesDistinct | provider/resources.go:48-55 | Two provider identifiers give tokens of one kind with the same name if and only if they are equal. |
| Catalog.PrefixedEntries | provider/resources.go:109-130 | A literal over provider identifiers builds without a fault. Every token has provider `transip` and the given module, and distinct keys have distinct names. |
| Catalog.ProviderBuilds | provider/resources.go:37-130 | Building the catalog never panics. The two maps have exactly the literal keys. Each entry is the token built from its own key in module `index`, which is proved from the transcribed arguments and modules. |
| Catalog.CatalogNamesUnique | provider/resources.go:109-130 | Within each map, distinct keys have distinct token names. |
| Catalog.ResourceEntry | provider/resources.go:110-120 | Each `Resources` key is in the map, bound to `makeResource(index, key)`. |
| Catalog.DataSourceEntry | provider/resources.go:123-129 | Each `DataSources` key is in the map, bound to `makeDataSource(index, key)`. |
| Catalog.ResourceOfWords | provider/resources.go:110-120 | The resource entry of a key spelled as words is named by the words capitalised and concatenated. |
| Catalog.DataSourceOfWords | provider/resources.go:123-129 | The data-source entry of a key spelled as words is named `get` followed by the words capitalised and concatenated. |
| Catalog.PrivateNetworkAttachmentExample | provider/resources.go:117 | `transip_private_network_attachment` is the resource `(transip, index, PrivateNetworkAttachment)`. |
| Catalog.VpsExample | provider/resources.go:119 | `transip_vps` is the resource `(transip, index, Vps)`. |
| Catalog.DomainDnssecExample | provider/resources.go:112 | `transip_domain_dnssec` is the resource `(transip, index, DomainDnssec)`. |
| Catalog.GetDomainExample | provider/resources.go:123 | `transip_domain` is the data source `(transip, index, getDomain)`. |

## Left out

- The descriptor's metadata (name, display name, publisher, URLs, keywords, licence, version, GitHub organisation, empty config), provider/resources.go:70-108. These are constant literals with no logic.
- The per-language packaging blocks (JavaScript, Python, Go, C#, Java), provider/resources.go:131-173. These are configuration data. The Go import path also depends on the build version.
- Wrapping the Terraform provider with `shimv1.NewProvider` (provider/resources.go:68). That is a foreign call into the bridge library, and the Terraform provider is not part of this model.
- `preConfigureCallback` (provider/resources.go:61-63) always returns no error. `SetAutonaming(255, "-")` (provider/resources.go:176) is a bridge-library method called on the finished descriptor. It does not change any token, and what else it does to the entries is not visible here.
- The string form of a token is built by the bridge library (`tfbridge.MakeResource`, `tfbridge.MakeDataSource`), which is not part of this model. Here a token is the (provider, module, name) triple it is built from.
- Tokens.MakeResource: any check `tfbridge.MakeResource` makes on the name it is given is not modelled, for example on the empty name that `x__` converts to. "Built exactly when `convertName` accepts" is a statement about this model.
- Tokens.MakeDataSource: likewise, any check `tfbridge.MakeDataSource` makes on the name is not modelled, so the same holds for data sources and for the pairing stated by `Tokens.ResourceAndDataSourceTokens`.
- Strcase.ToPascal: claimed faithful only on lower-case snake_case (letters `a`..`z` and single underscores). That is the only input the catalog gives it. Digits, capitals, acronyms and repeated underscores take library paths that are not modelled. For example, `x__` is accepted by the first assertion and converts to an empty name here.
- Naming.IndexOf: works on characters, where Go's `strings.Index` and slicing work on bytes. They agree on ASCII, which covers every identifier in the catalog.
- The text of the panic message (`Invalid snake case name %s`, provider/resources.go:42 and 44) is not modelled. A fault records the assertion that fired and the string the message is formatted with.
- Determinism of `Provider()` holds trivially, because the model is a pure function. Go's evaluation order inside the map literals matters only for which fault is reported, and `BuildEntries` fixes it as source order.

=== FILE: catalog.dfy ===
/** The entity catalog of `Provider()`: the static `Resources` and
    `DataSources` maps, each keyed by a raw identifier whose token is built
    from that same identifier in the main module.
 */
module Catalog {
  import opened Faults
  import opened Strcase
  import opened Naming
  import opened Tokens

  /** The module every token of this provider lives in. */
  const MainMod: string := "index"

  /** One entry of a map literal, `key: {Tok: make…(mod, arg)}`: the key,
      and the module and identifier its token builder is called with. */
  datatype Entry = Entry(key: string, mod: string, arg: string)

  /** The `Resources` literal, entry by entry in source order. */
  const ResourceEntries: seq<Entry> := [
    Entry("transip_dns_record", MainMod, "transip_dns_record"),
    Entry("transip_domain", MainMod, "transip_domain"),
    Entry("transip_domain_dnssec", MainMod, "transip_domain_dnssec"),
    Entry("transip_domain_nameservers", MainMod, "transip_domain_nameservers"),
    Entry("transip_openstack_project", MainMod, "transip_openstack_project"),
    Entry("transip_openstack_user", MainMod, "transip_openstack_user"),
    Entry("transip_private_network", MainMod, "transip_private_network"),
    Entry("transip_private_network_attachment", MainMod, "transip_private_network_attachment"),
    Entry("transip_sshkey", MainMod, "transip_sshkey"),
    Entry("transip_vps", MainMod, "transip_vps"),
    Entry("transip_vps_firewall", MainMod, "transip_vps_firewall")
  ]

  /** The `DataSources` literal, entry by entry in source order. */
  const DataSourceEntries: seq<Entry> := [
    Entry("transip_domain", MainMod, "transip_domain"),
    Entry("transip_domains", MainMod, "transip_domains"),
    Entry("transip_openstack_project", MainMod, "transip_openstack_project"),
    Entry("transip_openstack_user", MainMod, "transip_openstack_user"),
    Entry("transip_private_network", MainMod, "transip_private_network"),
    Entry("transip_sshkey", MainMod, "transip_sshkey"),
    Entry("transip_vps", MainMod, "transip_vps")
  ]

  /** The keys of a literal, in order. */
  function KeysOf(entries: seq<Entry>): (keys: seq<string>)
    ensures |keys| == |entries|
    ensures forall i :: 0 <= i < |entries| ==> keys[i] == entries[i].key
  {
    if |entries| == 0 then [] else [entries[0].key] + KeysOf(entries[1..])
  }

  /** The key column of the `Resources` literal, in source order. */
  const ResourceKeys: seq<string> := [
    "transip_dns_record",
    "transip_domain",
    "transip_domain_dnssec",
    "transip_domain_nameservers",
    "transip_openstack_project",
    "transip_openstack_user",
    "transip_private_network",
    "transip_private_network_attachment",
    "transip_sshkey",
    "transip_vps",
    "transip_vps_firewall"
  ]

  /** The key column of the `DataSources` literal, in source order. */
  const DataSourceKeys: seq<string> := [
    "transip_domain",
    "transip_domains",
    "transip_openstack_project",
    "transip_openstack_user",
    "transip_private_network",
    "transip_sshkey",
    "transip_vps"
  ]

  /** Every entry builds its token from its own key, in module `mod`. */
  predicate SelfNamed(entries: seq<Entry>, mod: string) {
    forall i :: 0 <= i < |entries| ==> entries[i].arg == entries[i].key && entries[i].mod == mod
  }

  /** Which of the two maps an entry belongs to. */
  datatype Kind = Resource | DataSource

  /** The token builder each kind of entry uses. */
  function MakeToken(kind: Kind, mod: string, raw: string): Result<Token> {
    match kind
    case Resource => MakeResource(mod, raw)
    case DataSource => MakeDataSource(mod, raw)
  }

  /** Evaluates a map literal whose every entry is `raw: MakeToken(raw)`,
      entry by entry in order; the first fault aborts the whole literal. */
  function BuildEntries(kind: Kind, mod: string, keys: seq<string>): (r: Result<map<string, Token>>)
    ensures r.Success? <==> forall k <- keys :: MakeToken(kind, mod, k).Success?
    ensures r.Success? ==> r.value.Keys == set k <- keys
    ensures r.Success? ==> forall k <- keys :: r.value[k] == MakeToken(kind, mod, k).value
    ensures r.Failure? ==>
      exists i :: 0 <= i < |keys| && MakeToken(kind, mod, keys[i]) == Failure(r.error)
                  && forall j :: 0 <= j < i ==> MakeToken(kind, mod, keys[j]).Success?
  {
    if |keys| == 0 then Success(map[])
    else
      var token :- MakeToken(kind, mod, keys[0]);
      var rest :- BuildEntries(kind, mod, keys[1..]);
      Success(rest[keys[0] := token])
  }

  /** Evaluates a map literal entry by entry in order, each entry's token
      built from its own module and identifier; the first fault aborts the
      whole literal. */
  function BuildLiteral(kind: Kind, entries: seq<Entry>): (r: Result<map<string, Token>>)
    ensures r.Success? <==> forall e <- entries :: MakeToken(kind, e.mod, e.arg).Success?
    ensures r.Success? ==> r.value.Keys == set e <- entries :: e.key
  {
    if |entries| == 0 then Success(map[])
    else
      var token :- MakeToken(kind, entries[0].mod, entries[0].arg);
      var rest :- BuildLiteral(kind, entries[1..]);
      Success(rest[entries[0].key := token])
  }

  /** A literal whose every entry is built from its own key in module `mod`
      is the key-only fold over its keys. */
  lemma {:induction false} BuildLiteralSelfNamed(kind: Kind, mod: string, entries: seq<Entry>)
    requires SelfNamed(entries, mod)
    ensures BuildLiteral(kind, entries) == BuildEntries(kind, mod, KeysOf(entries))
  {
    if |entries| > 0 {
      assert KeysOf(entries)[1..] == KeysOf(entries[1..]);
      BuildLiteralSelfNamed(kind, mod, entries[1..]);
    }
  }

  /** Every entry of the `Resources` literal builds its token from its own
      key, in the main module. */
  lemma ResourceEntriesSelfNamed()
    ensures SelfNamed(ResourceEntries, MainMod)
  {
  }

  /** Every entry of the `DataSources` literal builds its token from its own
      key, in the main module. */
  lemma DataSourceEntriesSelfNamed()
    ensures SelfNamed(DataSourceEntries, MainMod)
  {
  }

  /** The key columns are the keys of the two literals. */
  lemma KeyColumns()
    ensures KeysOf(ResourceEntries) == ResourceKeys
    ensures KeysOf(DataSourceEntries) == DataSourceKeys
  {
  }

  /** Both literals of the catalog are the key-only folds over their keys. */
  lemma CatalogSelfNamed()
    ensures BuildLiteral(Resource, ResourceEntries) == BuildEntries(Resource, MainMod, ResourceKeys)
    ensures BuildLiteral(DataSource, DataSourceEntries) == BuildEntries(DataSource, MainMod, DataSourceKeys)
  {
    ResourceEntriesSelfNamed();
    DataSourceEntriesSelfNamed();
    KeyColumns();
    BuildLiteralSelfNamed(Resource, MainMod, ResourceEntries);
    BuildLiteralSelfNamed(DataSource, MainMod, DataSourceEntries);
  }

  /** The part of the provider descriptor this model covers. */
  datatype ProviderInfo = ProviderInfo(
    resources: map<string, Token>,
    dataSources: map<string, Token>)

  /** `Provider()`, reduced to its two catalog maps. The `Resources` literal
      is evaluated before the `DataSources` literal, and the first fault
      aborts the build. Because every entry is built from its own key in the
      main module, each literal is the key-only fold over its key column. */
  function Provider(): (r: Result<ProviderInfo>)
    ensures var rs, ds := BuildEntries(Resource, MainMod, ResourceKeys),
                          BuildEntries(DataSource, MainMod, DataSourceKeys);
      && (r.Success? <==> rs.Success? && ds.Success?)
      && (rs.Failure? ==> r == Failure(rs.error))
      && (rs.Success? && ds.Failure? ==> r == Failure(ds.error))
      && (r.Success? ==> r.value.resources == rs.value && r.value.dataSources == ds.value)
  {
    CatalogSelfNamed();
    var resources :- BuildLiteral(Resource, ResourceEntries);
    var dataSources :- BuildLiteral(DataSource, DataSourceEntries);
    Success(ProviderInfo(resources, dataSources))
  }

  /** The prefix every catalog key carries: the provider name and a
      separator. It is spelled out as a literal, rather than computed from
      `ProviderName`, because the key lemmas compare it with string literals
      character by character; `KeyPrefixOfProvider` ties the two together. */
  const KeyPrefix: string := "transip_"

  /** `KeyPrefix` is the provider name and a separator. */
  lemma KeyPrefixOfProvider()
    ensures KeyPrefix == ProviderName + [Sep]
  {
  }

  /** `raw` is `p` followed by a lower-case snake_case suffix, stated
      position by position so that it is cheap to establish for a string
      literal. */
  predicate PrefixedSnake(p: string, raw: string) {
    && |p| < |raw|
    && (forall i :: 0 <= i < |p| ==> raw[i] == p[i])
    && raw[|p|] != Sep
    && raw[|raw| - 1] != Sep
    && (forall i :: |p| <= i < |raw| ==> IsLower(raw[i]) || raw[i] == Sep)
    && (forall i, j :: |p| <= i < |raw| && |p| <= j < |raw| && j == i + 1
          ==> raw[i] == Sep ==> raw[j] != Sep)
  }

  /** A raw identifier of this provider: the key prefix followed by a
      lower-case snake_case suffix. */
  predicate ProviderPrefixed(raw: string) {
    PrefixedSnake(KeyPrefix, raw)
  }

  /** The position-wise statement is the concatenation of the prefix and a
      snake_case suffix. */
  lemma {:induction false} PrefixedSnakeSplit(p: string, raw: string)
    ensures PrefixedSnake(p, raw) <==>
      && |p| < |raw|
      && raw == p + raw[|p|..]
      && IsSnake(raw[|p|..])
  {
    if |p| < |raw| {
      var suffix := raw[|p|..];
      assert forall i :: 0 <= i < |suffix| ==> suffix[i] == raw[i + |p|];
      if PrefixedSnake(p, raw) {
        assert raw[..|p|] == p;
        assert raw == raw[..|p|] + suffix;
      }
    }
  }

  /** Every key of the `Resources` literal is a raw identifier of this
      provider, so `convertName` accepts it. */
  lemma ResourceKeysArePrefixed()
    ensures forall k <- ResourceKeys :: ProviderPrefixed(k)
  {
    DomainKeysArePrefixed();
    OpenstackKeysArePrefixed();
    NetworkKeysArePrefixed();
    DnsRecordKeyIsPrefixed();
    DomainDetailKeysArePrefixed();
    AttachmentKeyIsPrefixed();
    FirewallKeyIsPrefixed();
  }

  /** Every key of the `DataSources` literal is a raw identifier of this
      provider, so `convertName` accepts it. */
  lemma DataSourceKeysArePrefixed()
    ensures forall k <- DataSourceKeys :: ProviderPrefixed(k)
  {
    DomainKeysArePrefixed();
    OpenstackKeysArePrefixed();
    NetworkKeysArePrefixed();
    assert ProviderPrefixed("transip_domains");
  }

  /** Keys both literals share: single-word suffixes. */
  lemma DomainKeysArePrefixed()
    ensures ProviderPrefixed("transip_domain")
    ensures ProviderPrefixed("transip_sshkey")
    ensures ProviderPrefixed("transip_vps")
  {
  }

  /** Keys both literals share: the OpenStack entities. */
  lemma OpenstackKeysArePrefixed()
    ensures ProviderPrefixed("transip_openstack_project")
    ensures ProviderPrefixed("transip_openstack_user")
  {
  }

  /** A key both literals share: the private network. */
  lemma NetworkKeysArePrefixed()
    ensures ProviderPrefixed("transip_private_network")
  {
  }

  /** A key only the `Resources` literal has: the DNS record. */
  lemma DnsRecordKeyIsPrefixed()
    ensures ProviderPrefixed("transip_dns_record")
  {
  }

  /** Keys only the `Resources` literal has: the domain's details. */
  lemma DomainDetailKeysArePrefixed()
    ensures ProviderPrefixed("transip_domain_dnssec")
    ensures ProviderPrefixed("transip_domain_nameservers")
  {
  }

  /** A key only the `Resources` literal has: the network attachment. */
  lemma AttachmentKeyIsPrefixed()
    ensures ProviderPrefixed("transip_private_network_attachment")
  {
  }

  /** A key only the `Resources` literal has: the VPS firewall. */
  lemma FirewallKeyIsPrefixed()
    ensures ProviderPrefixed("transip_vps_firewall")
  {
  }

  /** The tokens of a provider-prefixed identifier: the PascalCase form of
      its suffix, in module `mod`, behind "get" for a data source. */
  lemma {:induction false} PrefixedTokens(mod: string, raw: string)
    requires ProviderPrefixed(raw)
    ensures var suffix := raw[|KeyPrefix|..];
      && MakeToken(Resource, mod, raw) == Success(Token(ProviderName, mod, ToPascal(suffix)))
      && MakeToken(DataSource, mod, raw)
         == Success(Token(ProviderName, mod, DataSourcePrefix + ToPascal(suffix)))
  {
    var suffix := raw[|KeyPrefix|..];
    PrefixedSnakeSplit(KeyPrefix, raw);
    KeyPrefixOfProvider();
    ConvertNameOfSplit(ProviderName, suffix);
  }

  /** Names of one kind built from distinct provider-prefixed identifiers are
      distinct. */
  lemma {:induction false} PrefixedNamesDistinct(kind: Kind, mod: string, k1: string, k2: string)
    requires ProviderPrefixed(k1) && ProviderPrefixed(k2)
    ensures MakeToken(kind, mod, k1).Success? && MakeToken(kind, mod, k2).Success?
    ensures MakeToken(kind, mod, k1).value.name == MakeToken(kind, mod, k2).value.name <==> k1 == k2
  {
    var n1, n2 := ToPascal(k1[|KeyPrefix|..]), ToPascal(k2[|KeyPrefix|..]);
    PrefixedTokens(mod, k1);
    PrefixedTokens(mod, k2);
    SuffixNamesDistinct(k1, k2);
    PrefixCancels(DataSourcePrefix, n1, n2);
  }

  /** Distinct provider-prefixed identifiers have distinct PascalCase suffixes. */
  lemma {:induction false} SuffixNamesDistinct(k1: string, k2: string)
    requires ProviderPrefixed(k1) && ProviderPrefixed(k2)
    ensures ToPascal(k1[|KeyPrefix|..]) == ToPascal(k2[|KeyPrefix|..]) <==> k1 == k2
  {
    var s1, s2 := k1[|KeyPrefix|..], k2[|KeyPrefix|..];
    PrefixedSnakeSplit(KeyPrefix, k1);
    PrefixedSnakeSplit(KeyPrefix, k2);
    PascalInjective(s1, s2);
  }

  /** Concatenation cancels on the left. */
  lemma {:induction false} PrefixCancels(p: string, a: string, b: string)
    ensures p + a == p + b <==> a == b
  {
    if p + a == p + b {
      assert a == (p + a)[|p|..];
      assert b == (p + b)[|p|..];
    }
  }

  /** A map literal over provider-prefixed identifiers builds without a
      fault, maps each key to the token of its own suffix in module `mod`,
      and gives distinct keys distinct names. */
  lemma {:induction false} PrefixedEntries(kind: Kind, mod: string, keys: seq<string>)
    requires forall k <- keys :: ProviderPrefixed(k)
    ensures BuildEntries(kind, mod, keys).Success?
    ensures var m := BuildEntries(kind, mod, keys).value;
      forall k <- m :: m[k].provider == ProviderName && m[k].mod == mod
    ensures var m := BuildEntries(kind, mod, keys).value;
      forall k1 <- m, k2 <- m :: k1 != k2 ==> m[k1].name != m[k2].name
  {
    forall k <- keys ensures MakeToken(kind, mod, k).Success? {
      PrefixedTokens(mod, k);
    }
    var m := BuildEntries(kind, mod, keys).value;
    forall k1 <- m, k2 <- m | k1 != k2 ensures m[k1].name != m[k2].name {
      PrefixedNamesDistinct(kind, mod, k1, k2);
    }
  }

  /** Building the catalog never faults, and every entry is consistent: its
      token is built from its own key, in the main module. */
  lemma ProviderBuilds()
    ensures Provider().Success?
    ensures var p := Provider().value;
      && p.resources.Keys == (set k <- ResourceKeys)
      && p.dataSources.Keys == (set k <- DataSourceKeys)
    ensures var p := Provider().value;
      forall k <- p.resources :: p.resources[k] == MakeResource(MainMod, k).value
    ensures var p := Provider().value;
      forall k <- p.dataSources :: p.dataSources[k] == MakeDataSource(MainMod, k).value
    ensures var p := Provider().value;
      && (forall k <- p.resources :: p.resources[k].mod == MainMod)
      && (forall k <- p.dataSources :: p.dataSources[k].mod == MainMod)
  {
    ResourceKeysArePrefixed();
    DataSourceKeysArePrefixed();
    PrefixedEntries(Resource, MainMod, ResourceKeys);
    PrefixedEntries(DataSource, MainMod, DataSourceKeys);
  }

  /** Within each map of the catalog the generated names are pairwise
      distinct. */
  lemma CatalogNamesUnique()
    ensures Provider().Success?
    ensures var rs := Provider().value.resources;
      forall k1 <- rs, k2 <- rs :: k1 != k2 ==> rs[k1].name != rs[k2].name
    ensures var ds := Provider().value.dataSources;
      forall k1 <- ds, k2 <- ds :: k1 != k2 ==> ds[k1].name != ds[k2].name
  {
    ResourceKeysArePrefixed();
    DataSourceKeysArePrefixed();
    PrefixedEntries(Resource, MainMod, ResourceKeys);
    PrefixedEntries(DataSource, MainMod, DataSourceKeys);
  }

  /** A key of the `Resources` literal maps to its own resource token. */
  lemma {:induction false} ResourceEntry(key: string)
    requires key in ResourceKeys
    ensures Provider().Success?
    ensures key in Provider().value.resources
    ensures Provider().value.resources[key] == MakeResource(MainMod, key).value
  {
    ProviderBuilds();
  }

  /** A key of the `DataSources` literal maps to its own data-source token. */
  lemma {:induction false} DataSourceEntry(key: string)
    requires key in DataSourceKeys
    ensures Provider().Success?
    ensures key in Provider().value.dataSources
    ensures Provider().value.dataSources[key] == MakeDataSource(MainMod, key).value
  {
    ProviderBuilds();
  }

  /** The tokens of an identifier spelled as its words, in the main module. */
  lemma {:induction false} TokensOfWords(key: string, ws: seq<string>, name: string)
    requires |ws| > 0 && forall w <- ws :: IsWord(w)
    requires key == ProviderName + [Sep] + Join(ws) && name == ConcatCapitalised(ws)
    ensures MakeResource(MainMod, key) == Success(Token(ProviderName, MainMod, name))
    ensures MakeDataSource(MainMod, key) == Success(Token(ProviderName, MainMod, DataSourcePrefix + name))
  {
    ResourceTokenOfWords(MainMod, ProviderName, ws);
  }

  /** The resource entry of a key spelled as its words: the words
      capitalised and concatenated. */
  lemma {:induction false} ResourceOfWords(key: string, ws: seq<string>, name: string)
    requires key in ResourceKeys
    requires |ws| > 0 && forall w <- ws :: IsWord(w)
    requires key == ProviderName + [Sep] + Join(ws) && name == ConcatCapitalised(ws)
    ensures Provider().Success?
    ensures key in Provider().value.resources
    ensures Provider().value.resources[key] == Token(ProviderName, MainMod, name)
  {
    ResourceEntry(key);
    TokensOfWords(key, ws, name);
  }

  /** The data-source entry of a key spelled as its words: "get" and the
      words capitalised and concatenated. */
  lemma {:induction false} DataSourceOfWords(key: string, ws: seq<string>, name: string)
    requires key in DataSourceKeys
    requires |ws| > 0 && forall w <- ws :: IsWord(w)
    requires key == ProviderName + [Sep] + Join(ws) && name == ConcatCapitalised(ws)
    ensures Provider().Success?
    ensures key in Provider().value.dataSources
    ensures Provider().value.dataSources[key] == Token(ProviderName, MainMod, DataSourcePrefix + name)
  {
    DataSourceEntry(key);
    TokensOfWords(key, ws, name);
  }

  // Example: `transip_private_network_attachment`. The literal facts are
  // stated one per lemma, which keeps each proof small.

  /** The words of `private_network_attachment`. */
  lemma AttachmentWords()
    ensures forall w <- ["private", "network", "attachment"] :: IsWord(w)
  {
    assert IsWord("private");
    assert IsWord("network");
    assert IsWord("attachment");
  }

  /** `transip_private_network_attachment` is the eighth `Resources` key. */
  lemma AttachmentIndex()
    ensures ResourceKeys[7] == "transip_private_network_attachment"
  {
  }

  /** `transip_private_network_attachment` spelled as its words. */
  lemma AttachmentKey()
    ensures "transip_private_network_attachment"
         == ProviderName + [Sep] + Join(["private", "network", "attachment"])
  {
    AttachmentJoin();
    assert "transip" + "_" + "private_network_attachment" == "transip_private_network_attachment";
  }

  /** The words of `private_network_attachment`, joined. */
  lemma AttachmentJoin()
    ensures Join(["private", "network", "attachment"]) == "private_network_attachment"
  {
    assert ["private", "network", "attachment"][1..] == ["network", "attachment"];
    assert ["network", "attachment"][1..] == ["attachment"];
  }

  /** The words of `private_network_attachment`, each capitalised. */
  lemma AttachmentCapitalised()
    ensures ConcatCapitalised(["private", "network", "attachment"])
         == Capitalise("private") + (Capitalise("network") + (Capitalise("attachment") + ""))
  {
    assert ["private", "network", "attachment"][1..] == ["network", "attachment"];
    assert ["network", "attachment"][1..] == ["attachment"];
    assert ["attachment"][1..] == [];
  }

  /** Each word of `private_network_attachment`, capitalised. */
  lemma AttachmentWordsCapitalised()
    ensures Capitalise("private") == "Private"
    ensures Capitalise("network") == "Network"
    ensures Capitalise("attachment") == "Attachment"
  {
    assert Upper('p') == 'P' && Upper('n') == 'N' && Upper('a') == 'A';
  }

  /** The name the words of `private_network_attachment` give. */
  lemma AttachmentName()
    ensures ConcatCapitalised(["private", "network", "attachment"]) == "PrivateNetworkAttachment"
  {
    AttachmentCapitalised();
    AttachmentWordsCapitalised();
    assert "Private" + ("Network" + ("Attachment" + "")) == "PrivateNetworkAttachment";
  }

  /** `transip_private_network_attachment` is the resource
      `PrivateNetworkAttachment`. */
  lemma PrivateNetworkAttachmentExample()
    ensures Provider().Success?
    ensures var rs := Provider().value.resources;
      && "transip_private_network_attachment" in rs
      && rs["transip_private_network_attachment"] == Token("transip", "index", "PrivateNetworkAttachment")
  {
    AttachmentWords();
    AttachmentIndex();
    AttachmentKey();
    AttachmentName();
    ResourceOfWords(ResourceKeys[7], ["private", "network", "attachment"], "PrivateNetworkAttachment");
  }

  // Example: `transip_vps`.

  /** `transip_vps`, the tenth `Resources` key, spelled as its one word. */
  lemma VpsKey()
    ensures IsWord("vps")
    ensures ResourceKeys[9] == "transip_vps"
    ensures ResourceKeys[9] == ProviderName + [Sep] + Join(["vps"])
  {
  }

  /** The name the word `vps` gives. */
  lemma VpsName()
    ensures ConcatCapitalised(["vps"]) == "Vps"
  {
    assert ["vps"][1..] == [];
    assert Capitalise("vps") == "Vps" by {
      assert Upper('v') == 'V';
    }
  }

  /** `transip_vps` is the resource `Vps`. */
  lemma VpsExample()
    ensures Provider().Success?
    ensures var rs := Provider().value.resources;
      && "transip_vps" in rs
      && rs["transip_vps"] == Token("transip", "index", "Vps")
  {
    VpsKey();
    VpsName();
    ResourceOfWords(ResourceKeys[9], ["vps"], "Vps");
  }

  // Example: `transip_domain_dnssec`.

  /** `transip_domain_dnssec`, the third `Resources` key, spelled as its
      words. */
  lemma DomainDnssecKey()
    ensures forall w <- ["domain", "dnssec"] :: IsWord(w)
    ensures ResourceKeys[2] == "transip_domain_dnssec"
    ensures ResourceKeys[2] == ProviderName + [Sep] + Join(["domain", "dnssec"])
  {
    assert IsWord("domain");
    assert IsWord("dnssec");
    assert ["domain", "dnssec"][1..] == ["dnssec"];
  }

  /** Each word of `domain_dnssec`, capitalised. */
  lemma DomainDnssecWordsCapitalised()
    ensures Capitalise("domain") == "Domain"
    ensures Capitalise("dnssec") == "Dnssec"
  {
    assert Upper('d') == 'D';
  }

  /** The name the words of `domain_dnssec` give. */
  lemma DomainDnssecName()
    ensures ConcatCapitalised(["domain", "dnssec"]) == "DomainDnssec"
  {
    assert ["domain", "dnssec"][1..] == ["dnssec"];
    assert ["dnssec"][1..] == [];
    DomainDnssecWordsCapitalised();
    assert "Domain" + ("Dnssec" + "") == "DomainDnssec";
  }

  /** `transip_domain_dnssec` is the resource `DomainDnssec`. */
  lemma DomainDnssecExample()
    ensures Provider().Success?
    ensures var rs := Provider().value.resources;
      && "transip_domain_dnssec" in rs
      && rs["transip_domain_dnssec"] == Token("transip", "index", "DomainDnssec")
  {
    DomainDnssecKey();
    DomainDnssecName();
    ResourceOfWords(ResourceKeys[2], ["domain", "dnssec"], "DomainDnssec");
  }

  // Example: the data source `transip_domain`.

  /** `transip_domain`, the first `DataSources` key, spelled as its one word. */
  lemma DomainKey()
    ensures IsWord("domain")
    ensures DataSourceKeys[0] == "transip_domain"
    ensures DataSourceKeys[0] == ProviderName + [Sep] + Join(["domain"])
  {
  }

  /** The data-source name the word `domain` gives. */
  lemma GetDomainName()
    ensures ConcatCapitalised(["domain"]) == "Domain"
    ensures DataSourcePrefix + "Domain" == "getDomain"
  {
    assert ["domain"][1..] == [];
    assert Capitalise("domain") == "Domain" by {
      assert Upper('d') == 'D';
    }
  }

  /** `transip_domain` is the data source `getDomain`. */
  lemma GetDomainExample()
    ensures Provider().Success?
    ensures var ds := Provider().value.dataSources;
      && "transip_domain" in ds
      && ds["transip_domain"] == Token("transip", "index", "getDomain")
  {
    DomainKey();
    GetDomainName();
    DataSourceOfWords(DataSourceKeys[0], ["domain"], "Domain");
  }
}

=== FILE: faults.dfy ===
/** Build-time faults of the naming core.

    In the provider a malformed identifier trips `contract.Assertf`, which
    panics and aborts the whole build. Here that panic is an explicit
    `Failure` value, so every caller has to propagate it with `:-`.
 */
module Faults {

  /** Which of the two assertions in `convertName` fired. */
  datatype Site =
    | PrefixCheck   // the first underscore must sit strictly inside the name
    | SuffixCheck   // the text after the first underscore must be non-empty

  /** A fired assertion: where, and the string its message was formatted with. */
  datatype Fault = AssertionFailed(site: Site, subject: string)

  /** A value, or the fault that aborted its construction. */
  datatype Result<+T> = Success(value: T) | Failure(error: Fault) {

    predicate IsFailure() {
      Failure?
    }

    function PropagateFailure<U>(): Result<U>
      requires Failure?
    {
      Failure(error)
    }

    function Extract(): T
      requires Success?
    {
      value
    }
  }
}

=== FILE: naming.dfy ===
/** `convertName`: from a provider-prefixed snake_case identifier such as
    `transip_private_network_attachment` to the PascalCase name of what
    follows the first underscore, `PrivateNetworkAttachment`.
 */
module Naming {
  import opened Faults
  import opened Strcase

  /** `strings.Index` for a one-character needle: the index of the first
      occurrence of `c` in `s`, or -1 when there is none. */
  function IndexOf(s: string, c: char): (r: int)
    ensures -1 <= r < |s|
    ensures r == -1 <==> c !in s
    ensures 0 <= r ==> s[r] == c && c !in s[..r]
  {
    if |s| == 0 then -1
    else if s[0] == c then 0
    else
      var k := IndexOf(s[1..], c);
      if k == -1 then -1 else k + 1
  }

  /** The identifiers `convertName` accepts, stated without `IndexOf`: the
      first underscore is neither the first nor the last character. */
  predicate WellFormedName(name: string) {
    exists i :: 0 < i < |name| - 1 && name[i] == Sep && Sep !in name[..i]
  }

  /** `convertName`. The first assertion rejects a name whose first
      underscore is missing, leading or trailing; the second re-checks the
      (already shortened) name for emptiness and formats the suffix into its
      message. The second one never fires: every fault is the first one's. */
  function ConvertName(name: string): (r: Result<string>)
    ensures r.Failure? ==> r.error == AssertionFailed(PrefixCheck, name)
    ensures r.Success? ==> Sep !in r.value && |r.value| < |name|
  {
    var idx := IndexOf(name, Sep);
    if !(idx > 0 && idx < |name| - 1) then
      Failure(AssertionFailed(PrefixCheck, name))
    else
      var suffix := name[idx + 1..];
      if !(|suffix| > 0) then
        Failure(AssertionFailed(SuffixCheck, suffix))
      else
        Success(ToPascal(suffix))
  }

  // ---------------------------------------------------------------------
  // Lemmas

  /** A position holding the first occurrence of `c` is what `IndexOf` finds.
      This follows from `IndexOf`'s contract alone: there is only one first
      occurrence. */
  lemma {:induction false} IndexOfFirst(s: string, c: char, i: int)
    requires 0 <= i < |s| && s[i] == c && c !in s[..i]
    ensures IndexOf(s, c) == i
  {
  }

  /** `convertName` succeeds exactly on well-formed names. This follows from
      the contracts of `IndexOf` and `ConvertName`. */
  lemma {:induction false} ConvertNameAccepts(name: string)
    ensures ConvertName(name).Success? <==> WellFormedName(name)
  {
  }

  /** The three ways a name is rejected, each one on its own. These follow
      from the contract of `IndexOf`. */
  lemma {:induction false} ConvertNameRejects(name: string)
    ensures Sep !in name ==> ConvertName(name).Failure?
    ensures |name| > 0 && name[0] == Sep ==> ConvertName(name).Failure?
    ensures |name| > 0 && name[|name| - 1] == Sep && Sep !in name[..|name| - 1]
        ==> ConvertName(name).Failure?
  {
  }

  /** Splitting at the first underscore: only the suffix matters, and the
      name is accepted exactly when the prefix and the suffix are non-empty. */
  lemma {:induction false} ConvertNameOfSplit(prefix: string, suffix: string)
    requires Sep !in prefix
    ensures var name := prefix + [Sep] + suffix;
      ConvertName(name)
        == if |prefix| > 0 && |suffix| > 0 then Success(ToPascal(suffix))
           else Failure(AssertionFailed(PrefixCheck, name))
  {
    var name := prefix + [Sep] + suffix;
    assert name[..|prefix|] == prefix;
    IndexOfFirst(name, Sep, |prefix|);
    assert name[|prefix| + 1..] == suffix;
  }

  /** Two names with different prefixes but the same suffix convert alike. */
  lemma {:induction false} ConvertNamePrefixIndependent(p1: string, p2: string, suffix: string)
    requires Sep !in p1 && Sep !in p2
    requires |p1| > 0 && |p2| > 0
    ensures ConvertName(p1 + [Sep] + suffix).Success? <==> |suffix| > 0
    ensures ConvertName(p1 + [Sep] + suffix).Success?
        ==> ConvertName(p1 + [Sep] + suffix) == ConvertName(p2 + [Sep] + suffix)
  {
    ConvertNameOfSplit(p1, suffix);
    ConvertNameOfSplit(p2, suffix);
  }

  /** On a snake_case suffix the converted name is underscore-free, starts
      with a capital, is one character shorter per underscore, is the words
      capitalised and concatenated, and gives the suffix back. */
  lemma {:induction false} ConvertNameOfSnake(prefix: string, ws: seq<string>)
    requires Sep !in prefix && |prefix| > 0
    requires |ws| > 0 && forall w <- ws :: IsWord(w)
    ensures var suffix := Join(ws);
      && IsSnake(suffix)
      && ConvertName(prefix + [Sep] + suffix).Success?
      && var n := ConvertName(prefix + [Sep] + suffix).value;
         && n == ConcatCapitalised(ws)
         && Sep !in n
         && IsUpper(n[0])
         && |n| == |suffix| - Count(suffix, Sep)
         && ToSnake(n) == suffix
  {
    var suffix := Join(ws);
    JoinIsSnake(ws);
    ConvertNameOfSplit(prefix, suffix);
    PascalOfWords(ws);
    SnakeOfPascal(suffix);
  }

  /** Under one prefix, distinct snake_case suffixes give distinct names. */
  lemma {:induction false} ConvertNameInjective(prefix: string, s1: string, s2: string)
    requires Sep !in prefix && |prefix| > 0
    requires IsSnake(s1) && IsSnake(s2)
    ensures ConvertName(prefix + [Sep] + s1) == ConvertName(prefix + [Sep] + s2) <==> s1 == s2
  {
    ConvertNameOfSplit(prefix, s1);
    ConvertNameOfSplit(prefix, s2);
    PascalInjective(s1, s2);
  }
}

=== FILE: strcase.dfy ===
/** The case conversion `convertName` delegates to `strcase.ToPascal`.

    Only the library's behaviour on lower-case snake_case is modelled:
    non-empty words of the letters `a`..`z` separated by single underscores.
    On that domain the conversion capitalises every word and concatenates
    them, and `ToSnake` undoes it, so the conversion is injective there.
 */
module Strcase {

  /** The word separator of snake_case. */
  const Sep: char := '_'

  predicate IsLower(c: char) {
    'a' <= c <= 'z'
  }

  predicate IsUpper(c: char) {
    'A' <= c <= 'Z'
  }

  /** ASCII upper-casing; characters other than `a`..`z` are left alone. */
  function Upper(c: char): (u: char)
    ensures IsLower(c) ==> IsUpper(u) && Lower(u) == c
    ensures !IsLower(c) ==> u == c
  {
    if IsLower(c) then (c as int - 32) as char else c
  }

  /** ASCII lower-casing; characters other than `A`..`Z` are left alone. */
  function Lower(c: char): (l: char)
    ensures IsUpper(c) ==> IsLower(l)
    ensures !IsUpper(c) ==> l == c
  {
    if IsUpper(c) then (c as int + 32) as char else c
  }

  /** Number of occurrences of `c` in `s`. */
  function Count(s: string, c: char): (n: nat)
    ensures n <= |s|
    ensures n == 0 <==> c !in s
  {
    if |s| == 0 then 0
    else (if s[0] == c then 1 else 0) + Count(s[1..], c)
  }

  // ---------------------------------------------------------------------
  // The snake_case domain

  /** Every character is a lower-case letter or the separator. */
  predicate LowerOrSep(s: string) {
    forall i :: 0 <= i < |s| ==> IsLower(s[i]) || s[i] == Sep
  }

  /** No two separators are adjacent. */
  predicate NoDoubleSep(s: string) {
    forall i, j :: 0 <= i < |s| && 0 <= j < |s| && j == i + 1 ==> s[i] == Sep ==> s[j] != Sep
  }

  /** What may follow a word: separators only between non-empty words and
      never at the very end (a leading separator is allowed). */
  predicate SnakeTail(s: string) {
    && LowerOrSep(s)
    && NoDoubleSep(s)
    && (|s| > 0 ==> s[|s| - 1] != Sep)
  }

  /** Non-empty lower-case words joined by single separators. */
  predicate IsSnake(s: string) {
    |s| > 0 && s[0] != Sep && SnakeTail(s)
  }

  /** A non-empty word of lower-case letters. */
  predicate IsWord(w: string) {
    |w| > 0 && forall i :: 0 <= i < |w| ==> IsLower(w[i])
  }

  // ---------------------------------------------------------------------
  // The conversion and its inverse

  /** Walks `s`, dropping each separator and upper-casing the character
      after it; `capNext` says whether the next letter starts a word. */
  function PascalFrom(s: string, capNext: bool): (r: string)
    ensures Sep !in r
    ensures |r| == |s| - Count(s, Sep)
    decreases |s|
  {
    if |s| == 0 then ""
    else if s[0] == Sep then PascalFrom(s[1..], true)
    else [if capNext then Upper(s[0]) else s[0]] + PascalFrom(s[1..], false)
  }

  /** `strcase.ToPascal` on its snake_case domain. */
  function ToPascal(s: string): (r: string)
    ensures Sep !in r
    ensures |r| == |s| - Count(s, Sep)
    ensures IsSnake(s) ==> |r| > 0 && IsUpper(r[0]) && Lower(r[0]) == s[0]
  {
    PascalFrom(s, true)
  }

  /** Walks a PascalCase string, lower-casing each capital and putting a
      separator before every capital except a leading one. */
  function SnakeFrom(p: string, first: bool): string
    decreases |p|
  {
    if |p| == 0 then ""
    else if IsUpper(p[0]) then
      (if first then [] else [Sep]) + [Lower(p[0])] + SnakeFrom(p[1..], false)
    else [p[0]] + SnakeFrom(p[1..], false)
  }

  /** The inverse of `ToPascal` on the snake_case domain. */
  function ToSnake(p: string): string {
    SnakeFrom(p, true)
  }

  // ---------------------------------------------------------------------
  // Word-level reference definition

  /** The words joined by single separators. */
  function Join(ws: seq<string>): string
  {
    if |ws| == 0 then ""
    else if |ws| == 1 then ws[0]
    else ws[0] + [Sep] + Join(ws[1..])
  }

  /** The word with its first letter upper-cased. */
  function Capitalise(w: string): string {
    if |w| == 0 then "" else [Upper(w[0])] + w[1..]
  }

  /** The words, each capitalised, concatenated without separators. */
  function ConcatCapitalised(ws: seq<string>): string {
    if |ws| == 0 then "" else Capitalise(ws[0]) + ConcatCapitalised(ws[1..])
  }

  // ---------------------------------------------------------------------
  // Lemmas

  /** Inside a word the walk copies characters verbatim. */
  lemma {:induction false} PascalFromPlain(w: string, t: string)
    requires Sep !in w
    ensures PascalFrom(w + t, false) == w + PascalFrom(t, false)
    decreases |w|
  {
    if |w| > 0 {
      assert (w + t)[0] == w[0];
      assert (w + t)[1..] == w[1..] + t;
      PascalFromPlain(w[1..], t);
      assert w == [w[0]] + w[1..];
    } else {
      assert w + t == t;
    }
  }

  /** A word followed by anything: its first letter is capitalised when the
      walk is at a word start, the rest is copied. */
  lemma {:induction false} PascalFromWord(w: string, t: string, capNext: bool)
    requires |w| > 0 && Sep !in w
    ensures PascalFrom(w + t, capNext)
         == [if capNext then Upper(w[0]) else w[0]] + w[1..] + PascalFrom(t, false)
  {
    assert (w + t)[0] == w[0];
    assert (w + t)[1..] == w[1..] + t;
    PascalFromPlain(w[1..], t);
  }

  /** The conversion capitalises each word and concatenates them. */
  lemma {:induction false} PascalOfWords(ws: seq<string>)
    requires |ws| > 0
    requires forall w <- ws :: IsWord(w)
    ensures ToPascal(Join(ws)) == ConcatCapitalised(ws)
  {
    var w := ws[0];
    assert IsWord(w);
    assert Sep !in w by {
      assert forall k :: 0 <= k < |w| ==> IsLower(w[k]);
    }
    if |ws| == 1 {
      PascalFromWord(w, "", true);
      assert w + "" == w;
      assert ConcatCapitalised(ws[1..]) == "";
    } else {
      var rest := Join(ws[1..]);
      assert Join(ws) == w + ([Sep] + rest);
      PascalFromWord(w, [Sep] + rest, true);
      assert ([Sep] + rest)[1..] == rest;
      assert PascalFrom([Sep] + rest, false) == PascalFrom(rest, true);
      PascalOfWords(ws[1..]);
    }
  }

  /** Joining non-empty lower-case words yields a snake_case string. */
  lemma {:induction false} JoinIsSnake(ws: seq<string>)
    requires |ws| > 0
    requires forall w <- ws :: IsWord(w)
    ensures IsSnake(Join(ws))
  {
    var w := ws[0];
    assert IsWord(w);
    if |ws| > 1 {
      JoinIsSnake(ws[1..]);
      var rest := Join(ws[1..]);
      var s := w + [Sep] + rest;
      assert Join(ws) == s;
      assert forall i :: 0 <= i < |w| ==> s[i] == w[i];
      assert s[|w|] == Sep;
      assert forall i :: |w| < i < |s| ==> s[i] == rest[i - |w| - 1];
      assert LowerOrSep(s);
      assert NoDoubleSep(s) by {
        forall i, j | 0 <= i < |s| && 0 <= j < |s| && j == i + 1
          ensures s[i] == Sep ==> s[j] != Sep
        {
          if j < |w| {
            assert IsLower(s[j]);
          } else if j == |w| {
            assert IsLower(s[i]);
          } else if j == |w| + 1 {
            assert s[j] == rest[0];
          } else {
            assert s[i] == rest[i - |w| - 1] && s[j] == rest[j - |w| - 1];
          }
        }
      }
    }
  }

  /** Dropping characters from the front keeps the tail invariant. */
  lemma {:induction false} SnakeTailDrop(s: string, n: nat)
    requires SnakeTail(s) && n <= |s|
    ensures SnakeTail(s[n..])
  {
    var t := s[n..];
    assert forall i :: 0 <= i < |t| ==> t[i] == s[i + n];
  }

  /** One step of the inverse walk. */
  lemma {:induction false} SnakeFromCons(c: char, p: string, first: bool)
    ensures SnakeFrom([c] + p, first)
         == (if IsUpper(c) then (if first then [] else [Sep]) + [Lower(c)] else [c])
            + SnakeFrom(p, false)
  {
    assert ([c] + p)[0] == c;
    assert ([c] + p)[1..] == p;
  }

  /** One step of the walk over a separator and the letter after it. */
  lemma {:induction false} PascalFromSepStep(s: string)
    requires |s| >= 2 && s[0] == Sep && s[1] != Sep
    ensures PascalFrom(s, false) == [Upper(s[1])] + PascalFrom(s[2..], false)
  {
    assert s[1..][1..] == s[2..];
  }

  /** The tail invariant of the round trip: after the first letter, the walk
      and its inverse cancel. */
  lemma {:induction false} TailRoundTrip(s: string)
    requires SnakeTail(s)
    ensures SnakeFrom(PascalFrom(s, false), false) == s
    decreases |s|
  {
    if |s| == 0 {
    } else if s[0] == Sep {
      assert |s| >= 2;
      assert s[1] != Sep;
      var c := s[1];
      assert IsLower(c);
      var t := s[2..];
      SnakeTailDrop(s, 2);
      TailRoundTrip(t);
      var p := PascalFrom(t, false);
      PascalFromSepStep(s);
      SnakeFromCons(Upper(c), p, false);
      assert s == [Sep, c] + t;
    } else {
      var c := s[0];
      assert IsLower(c);
      var t := s[1..];
      SnakeTailDrop(s, 1);
      TailRoundTrip(t);
      var p := PascalFrom(t, false);
      assert PascalFrom(s, false) == [c] + p;
      SnakeFromCons(c, p, false);
      assert s == [c] + t;
    }
  }

  /** `ToSnake` undoes `ToPascal` on snake_case input. */
  lemma {:induction false} SnakeOfPascal(s: string)
    requires IsSnake(s)
    ensures ToSnake(ToPascal(s)) == s
  {
    var t := s[1..];
    assert IsLower(s[0]);
    SnakeTailDrop(s, 1);
    TailRoundTrip(t);
    var p := PascalFrom(t, false);
    assert ToPascal(s) == [Upper(s[0])] + p;
    SnakeFromCons(Upper(s[0]), p, true);
    assert s == [s[0]] + t;
  }

  /** Distinct snake_case strings convert to distinct PascalCase strings. */
  lemma {:induction false} PascalInjective(a: string, b: string)
    requires IsSnake(a) && IsSnake(b)
    ensures ToPascal(a) == ToPascal(b) <==> a == b
  {
    SnakeOfPascal(a);
    SnakeOfPascal(b);
  }
}

=== FILE: tokens.dfy ===
/** `makeResource` and `makeDataSource`: the token of a resource or data
    source, built from the provider name, a module and the converted name.

    The bridge library's string form of a token is not part of this model;
    a token is the (provider, module, name) triple it is built from.
 */
module Tokens {
  import opened Faults
  import opened Strcase
  import opened Naming

  /** The provider part of every token this provider builds. */
  const ProviderName: string := "transip"

  /** What a data-source name is prefixed with, marking it as a lookup. */
  const DataSourcePrefix: string := "get"

  datatype Token = Token(provider: string, mod: string, name: string)

  /** `makeResource`: the converted name placed in module `mod`. */
  function MakeResource(mod: string, res: string): (r: Result<Token>)
    ensures r.Success? <==> ConvertName(res).Success?
    ensures r.Failure? ==> r.error == AssertionFailed(PrefixCheck, res)
    ensures r.Success? ==> r.value.provider == ProviderName && r.value.mod == mod
    ensures r.Success? ==> r.value.name == ConvertName(res).value
    ensures r.Success? ==> Sep !in r.value.name
  {
    var name :- ConvertName(res);
    Success(Token(ProviderName, mod, name))
  }

  /** `makeDataSource`: the converted name, prefixed with "get", placed in
      module `mod`. */
  function MakeDataSource(mod: string, name: string): (r: Result<Token>)
    ensures r.Success? <==> ConvertName(name).Success?
    ensures r.Failure? ==> r.error == AssertionFailed(PrefixCheck, name)
    ensures r.Success? ==> r.value.provider == ProviderName && r.value.mod == mod
    ensures r.Success? ==> |DataSourcePrefix| <= |r.value.name|
    ensures r.Success? ==> r.value.name[..|DataSourcePrefix|] == DataSourcePrefix
    ensures r.Success? ==> r.value.name == DataSourcePrefix + ConvertName(name).value
    ensures r.Success? ==> Sep !in r.value.name
  {
    var converted :- ConvertName(name);
    Success(Token(ProviderName, mod, DataSourcePrefix + converted))
  }

  /** The resource token of any name split at its first underscore: built
      from the suffix when both parts are non-empty, otherwise the first
      assertion's fault. */
  lemma {:induction false} MakeResourceOfSplit(mod: string, prefix: string, suffix: string)
    requires Sep !in prefix
    ensures MakeResource(mod, prefix + [Sep] + suffix)
         == if |prefix| > 0 && |suffix| > 0 then Success(Token(ProviderName, mod, ToPascal(suffix)))
            else Failure(AssertionFailed(PrefixCheck, prefix + [Sep] + suffix))
  {
    ConvertNameOfSplit(prefix, suffix);
  }

  /** The data-source token of any name split at its first underscore: "get"
      and the converted suffix when both parts are non-empty, otherwise the
      first assertion's fault. */
  lemma {:induction false} MakeDataSourceOfSplit(mod: string, prefix: string, suffix: string)
    requires Sep !in prefix
    ensures MakeDataSource(mod, prefix + [Sep] + suffix)
         == if |prefix| > 0 && |suffix| > 0
            then Success(Token(ProviderName, mod, DataSourcePrefix + ToPascal(suffix)))
            else Failure(AssertionFailed(PrefixCheck, prefix + [Sep] + suffix))
  {
    ConvertNameOfSplit(prefix, suffix);
  }

  /** For one (module, identifier) pair the resource and data-source tokens
      are built or rejected together, and differ only in the name, which for
      the data source is the resource's name behind "get". */
  lemma {:induction false} ResourceAndDataSourceTokens(mod: string, raw: string)
    ensures MakeResource(mod, raw).Success? <==> MakeDataSource(mod, raw).Success?
    ensures MakeResource(mod, raw).Failure? ==> MakeResource(mod, raw) == MakeDataSource(mod, raw)
    ensures MakeResource(mod, raw).Success? ==>
      var res := MakeResource(mod, raw).value;
      var ds := MakeDataSource(mod, raw).value;
      && res.provider == ds.provider
      && res.mod == ds.mod
      && ds.name == DataSourcePrefix + res.name
      && res != ds
  {
  }

  /** The resource token of a provider-prefixed snake_case identifier names
      its words capitalised and concatenated. */
  lemma {:induction false} ResourceTokenOfWords(mod: string, prefix: string, ws: seq<string>)
    requires Sep !in prefix && |prefix| > 0
    requires |ws| > 0 && forall w <- ws :: IsWord(w)
    ensures MakeResource(mod, prefix + [Sep] + Join(ws))
         == Success(Token(ProviderName, mod, ConcatCapitalised(ws)))
    ensures MakeDataSource(mod, prefix + [Sep] + Join(ws))
         == Success(Token(ProviderName, mod, DataSourcePrefix + ConcatCapitalised(ws)))
  {
    ConvertNameOfSnake(prefix, ws);
  }
}
